=== FILE: README.md ===
# Text handling of the sentiment and summarisation pages

This project is a Dafny model of the text processing that two pages of a small
React front end do in the browser. The other pages only forward text to a
hosted inference service.

- **Sentiment page** (`SentimentAnalysis.tsx`):
  - `analyzeSentiment` labels a text Positive, Negative or Neutral. It checks
    the lower-cased text against two ordered word lists. It also builds a
    reason string and draws a random score within the label's band.
  - The upload handler turns a `.txt`, `.csv` or `.json` file into a corpus of
    trimmed, non-empty documents, or into an error message.
  - `analyzeRows` scores an inclusive range of corpus rows.
  - `analyzeText` scores the typed text.
  - The page state (text input, corpus, row bounds, results, error) is the
    class `SentimentPage.SentimentAnalysisPage`. Its methods change only the
    fields the corresponding handler sets.
- **Summarisation page** (`TextSummarization.tsx`):
  - `summarizeText` guards against blank input and interprets the service's
    answer. It formats `summary_text` into one bullet line per kept sentence.
  - The word counter under the input.
  - The page state is the class `Summarization.SummarizationPage`. The
    service's answer is a parameter.

Modules:

- `Optional` (optional.dfy): `Option`.
- `Seqs` (seqs.dfy): `Array.prototype.filter`, with its subsequence and counting contract.
- `JsStrings` (js_strings.dfy): `trim`, ASCII `toLowerCase`, `includes`, `endsWith`, `split` on a literal, `join`.
- `Sentiment` (sentiment.dfy): the keyword scorer.
- `Ingest` (ingest.dfy): the `.txt`, CSV and JSON normalisation, and the extension dispatch.
- `SentimentPage` (sentiment_page.dfy): the sentiment page state and its three actions.
- `Summarization` (summarization.dfy): the summary formatter, the word count, and the summarisation page state.

Inputs the code gets from outside are parameters:

- `Math.random()` is `r` with `0 <= r < 1`. For a batch, `rand(i)` is the
  draw for the i-th scored document.
- What `Number(line)` can read is a predicate `numeric`. Only
  `numeric("")` is required, because `Number("")` is 0.
- What the CSV library parsed is `CsvParse`.
- What `JSON.parse` returned is `Option<Json>`, where `None` means it threw.
- The summarisation service's answer is `SummaryResponse`.

Three behaviours of the code are easy to misread; the model follows the code:

- An array item that is `null` makes `item.text` throw inside the `try`. The
  message is then "Error parsing JSON file.", not the invalid-format message.
  `every` stops at the first failing item, so the first offending item decides
  which message is shown (`Ingest.CheckItems`).
- A successful `analyzeText` does not clear an earlier error
  (`SentimentPage.SentimentAnalysisPage.AnalyzeText`).
- The reason string looks the word up again in the *original* text with a
  case-sensitive search, while the label is decided on the lower-cased text.
  So a text such as "GOOD" is Positive with the reason
  `Contains optimistic words like "undefined".`
  (`Sentiment.UpperCaseReasonIsUndefined`, `Sentiment.ShoutedGood`).

## Model

| member | source | states |
|---|---|---|
| Sentiment.AnalyzeSentiment | SentimentAnalysis.tsx:61-80 | The text is returned unchanged. The label is Positive iff some positive word occurs in the lower-cased text, so positive wins over negative. It is Negative iff no positive word and some negative word occurs there, and Neutral otherwise. Positive and Negative carry their reason strings with scores in [0.5, 1) and [0, 0.5). Neutral carries "Balanced or mixed sentiment." and the raw draw. |
| Sentiment.FirstIncluded | SentimentAnalysis.tsx:71 | The index where `find` stops: every earlier word is absent from the text, and the word at the index, if any, occurs in it. |
| Sentiment.SomeIncluded | SentimentAnalysis.tsx:69 | `some`: some word of the list occurs in the text. |
| Sentiment.FindIncluded | SentimentAnalysis.tsx:71-75 | `find` returns nothing exactly when no word of the list occurs in the text. Otherwise it returns the first word in list order that occurs in the text, case-sensitively. |
| Sentiment.Describe | SentimentAnalysis.tsx:71 | A template literal prints a found word as itself and a missing one as "undefined". |
| Sentiment.PositiveReason | SentimentAnalysis.tsx:71 | The positive reason quotes the result of the case-sensitive `find` over the positive words. |
| Sentiment.NegativeReason | SentimentAnalysis.tsx:75 | The negative reason quotes the result of the case-sensitive `find` over the negative words. |
| Sentiment.AnalyzeSentimentWellFormed | SentimentAnalysis.tsx:65-76 | Every record's score lies in [0, 1) and in its label's band. |
| Sentiment.MarkerWordsLowerCase | SentimentAnalysis.tsx:62-63 | Both word lists are written in lower case, so lowering them changes nothing. |
| Sentiment.ReasonWordAgreesWithLabel | SentimentAnalysis.tsx:69-75 | If the reason can name a positive word, the label is Positive. If it can name a negative word, the label is not Neutral. |
| Sentiment.UpperCaseReasonIsUndefined | SentimentAnalysis.tsx:69-71 | A text with no lower-case letter that matches a positive word case-insensitively is Positive, but its reason quotes "undefined". |
| Sentiment.NoWordStartsUpperCase | SentimentAnalysis.tsx:71 | A case-sensitive search finds no word starting with a lower-case letter in a text that has no lower-case letter. |
| Sentiment.UndefinedPositiveReason | SentimentAnalysis.tsx:71 | When no positive word occurs case-sensitively, `find` returns `undefined` and the reason quotes "undefined". |
| Sentiment.ShoutedGood | SentimentAnalysis.tsx:69-71 | "GOOD" is given the reason `Contains optimistic words like "undefined".` |
| Ingest.DropCarriageReturn | SentimentAnalysis.tsx:30 | Dropping the `\r` of a line ending: adding it back to a line that had it gives the original, and a line without one is unchanged. |
| Ingest.SplitLines | SentimentAnalysis.tsx:30 | `split(/\r?\n/)` gives one more line than the content has line feeds. Each line is the matching piece between line feeds, without its final `\r` except in the last line. |
| Ingest.LinesHaveNoLineFeed | SentimentAnalysis.tsx:30 | No line contains a line feed. |
| Ingest.TrimAll | SentimentAnalysis.tsx:30 | Trimming every line keeps their number and order, the i-th result being the trim of the i-th line. |
| Ingest.TxtDocuments | SentimentAnalysis.tsx:30 | The `.txt` corpus is, in file order, exactly the trimmed lines that are not numeric: a subsequence holding every such line, one entry per such line. No kept line is empty or numeric. |
| Ingest.NotNumeric | SentimentAnalysis.tsx:30 | The `.txt` filter keeps a trimmed line exactly when `Number` cannot read it, as `isNaN(Number(line))` does, with `Number` given as a parameter. |
| Ingest.TextField | SentimentAnalysis.tsx:38 | `row.Text?.trim()` is missing for a record without `Text`, else the trimmed cell. |
| Ingest.Truthy | SentimentAnalysis.tsx:38 | `filter(Boolean)` keeps a present, non-empty string. |
| Ingest.Projection | SentimentAnalysis.tsx:38 | Mapping `row.Text?.trim()` gives one value per record. |
| Ingest.CsvDocuments | SentimentAnalysis.tsx:37-38 | The CSV corpus holds only trimmed, non-empty texts, at most one per record. |
| Ingest.KeptField | SentimentAnalysis.tsx:37-38 | For one record, keeping a truthy trimmed `Text` field is keeping a non-empty trimmed text, and a record without the field keeps nothing. |
| Ingest.CsvKeepsNonEmptyTexts | SentimentAnalysis.tsx:37-38 | The CSV corpus equals the filter of non-empty strings over the trimmed `Text` columns, in record order. A record without `Text` is dropped like a blank one. |
| Ingest.HasText | SentimentAnalysis.tsx:45 | `typeof item.text === "string"` holds of an object whose `text` field is a string. |
| Ingest.ItemText | SentimentAnalysis.tsx:46 | `item.text` is the string held in the item's `text` field, for an item that has one. |
| Ingest.TrimmedTexts | SentimentAnalysis.tsx:46 | Mapping `item.text.trim()` keeps one text per item, in order, the i-th being the trim of the i-th item's `text`. |
| Ingest.CheckItems | SentimentAnalysis.tsx:45 | The `every` check succeeds iff every item has a string `text`. It throws iff the first item lacking one is `null`. |
| Ingest.JsonDocuments | SentimentAnalysis.tsx:46 | The JSON corpus is, in array order, exactly the non-empty trimmed texts, all trimmed and non-empty. |
| Ingest.JsonUpload | SentimentAnalysis.tsx:43-52 | A JSON upload loads iff the value parsed and is an array whose every item has a string `text`, and then it loads exactly the JSON documents of those items. A parse failure gives "Error parsing JSON file." A value that is not an array, or an array whose first item without a string `text` is not `null`, gives the invalid-format message. An array whose first such item is `null` gives "Error parsing JSON file.". |
| Ingest.ExtensionsExclusive | SentimentAnalysis.tsx:29-42 | A name ends with at most one of `.txt`, `.csv` and `.json`. |
| Ingest.NormalizeUpload | SentimentAnalysis.tsx:29-55 | The extension picks the branch. `.txt` loads exactly the `.txt` documents. `.csv` loads exactly the CSV documents iff the parser succeeded, and otherwise gives "Error parsing CSV file.". `.json` gives exactly the JSON branch's outcome. Any other name gives "Unsupported file format. Upload CSV, JSON, or TXT.". Whatever loads is a corpus of trimmed, non-empty documents. |
| SentimentPage.AnalyzeAll | SentimentAnalysis.tsx:89-90 | Scoring a list gives one record per document, in order. Each record is for its own document, is the scorer's result with that document's draw, and is in its label's score band. |
| SentimentPage.ValidRange | SentimentAnalysis.tsx:84 | The negation of the range guard: both bounds are set, `startRow` is not negative, `startRow <= endRow`, and `endRow` is below the corpus size. |
| SentimentPage.SentimentAnalysisPage.constructor | SentimentAnalysis.tsx:12-17 | The page starts with empty text, corpus and results, no error and no row bounds. |
| SentimentPage.SentimentAnalysisPage.HandleFileUpload | SentimentAnalysis.tsx:20-58 | No file changes nothing. Otherwise the error is cleared, and then the corpus is replaced by the normalised documents, or the corpus is kept and the error set to the branch's message. Results are untouched, and the corpus stays trimmed and non-empty. |
| SentimentPage.SentimentAnalysisPage.ApplyUpload | SentimentAnalysis.tsx:27-55 | The state change of one upload: the error is cleared, then a loaded corpus replaces the old one, or a rejection keeps the corpus and shows its message. The corpus invariant is kept. |
| SentimentPage.SentimentAnalysisPage.AnalyzeRows | SentimentAnalysis.tsx:83-93 | A missing bound, `start < 0`, `end >= length` or `start > end` sets "Please enter valid row numbers." and keeps the results. Otherwise the results hold `end - start + 1` records, the i-th for row `start + i`, and the error is cleared. |
| SentimentPage.SentimentAnalysisPage.AnalyzeText | SentimentAnalysis.tsx:96-102 | Blank text sets "Please enter text." and keeps the results. Otherwise the results become the single record for the untrimmed text, and the error is left as it was. |
| SentimentPage.NoPositiveInBadDay | SentimentAnalysis.tsx:62-69 | "bad day" is unchanged by lower-casing and contains no positive word. |
| SentimentPage.GoodDayBadDay | SentimentAnalysis.tsx:83-93 | Scoring the corpus ["good day", "bad day"] labels it Positive, then Negative. |
| Summarization.KeepPoint | TextSummarization.tsx:36-41 | The formatter's filter: a non-empty piece holding neither boilerplate sentence. |
| Summarization.KeptPoints | TextSummarization.tsx:34-41 | The kept pieces are a subsequence of the pieces, so they keep their original order. Each is non-empty and holds neither boilerplate sentence. |
| Summarization.BulletPoint | TextSummarization.tsx:42 | One bullet: the prefix "🔹 ", the trimmed piece, and a final dot. |
| Summarization.Bullets | TextSummarization.tsx:42 | Mapping the bullet format keeps one line per piece, in order, the i-th line being `"🔹 " + trim(p) + "."` for the i-th piece `p`. |
| Summarization.SummaryLines | TextSummarization.tsx:34-43 | There is one line per piece of `split(". ")` that is non-empty and contains neither boilerplate phrase, as many lines as such positions. The i-th line is the bullet of the i-th kept piece. |
| Summarization.NoBoilerplateLines | TextSummarization.tsx:37-42 | No line of the formatted summary contains either boilerplate phrase. |
| Summarization.FormatSummary | TextSummarization.tsx:34-43 | The formatted summary is the bullet lines joined by line feeds. It is empty exactly when no piece is kept. |
| Summarization.NoBoilerplateInSummary | TextSummarization.tsx:34-43 | The displayed summary contains neither boilerplate sentence anywhere, not even across a line break. |
| Summarization.BulletKeepsOut | TextSummarization.tsx:37-42 | A phrase that cannot start in the bullet prefix or end on the final dot, and is absent from a piece, is absent from that piece's bullet. |
| Summarization.BoilerplateShape | TextSummarization.tsx:39-40 | Neither boilerplate phrase starts with a bullet-prefix character, ends with a dot, or contains a line feed. |
| Summarization.BlankPointKept | TextSummarization.tsx:38-42 | A non-empty piece of only whitespace passes the filter and becomes "🔹 .". |
| Summarization.FinalDotDoubled | TextSummarization.tsx:34-43 | A summary ending in "." whose last piece is kept is formatted to end in "..". |
| Summarization.BulletsEndWithDots | TextSummarization.tsx:42-43 | If the last piece trims to a string ending in ".", its bullets joined by line feeds end in "..". |
| Summarization.DotAfterDot | TextSummarization.tsx:42 | A bullet made of a text that ends in "." ends in "..". |
| Summarization.WordCount | TextSummarization.tsx:121 | The word count is the number of spaces plus one, so the empty text counts one word. |
| Summarization.Outcome | TextSummarization.tsx:30-47 | The request yields a summary iff the service answered with a non-empty `summary_text`, and that summary is the formatted text. An answer without it gives "❌ Failed to generate summary. Please try again.". A thrown `Error` shows its own message, and any other thrown value gives "❌ An unexpected error occurred.". |
| Summarization.SummarizationPage.constructor | TextSummarization.tsx:6-10 | The page starts with empty text, no summary, no error, and not loading or copied. |
| Summarization.SummarizationPage.SummarizeText | TextSummarization.tsx:12-52 | Blank text sets "⚠️ Please enter some text to summarize." and changes nothing else. Otherwise the copied flag is cleared and loading ends. Either the summary is set and the error cleared, or the summary is cleared and the error set to the outcome's message. |
| JsStrings.Trim | SentimentAnalysis.tsx:30 | `trim` leaves no whitespace at either end, never lengthens, and gives "" exactly for all-whitespace input. |
| JsStrings.IsWhitespace | SentimentAnalysis.tsx:97 | The characters `trim` removes: the ECMAScript WhiteSpace characters (tab, vertical tab, form feed, space, no-break space, byte order mark and the Unicode space separators) and the LineTerminator characters (line feed, carriage return, U+2028 and U+2029). |
| JsStrings.SkipLeading | SentimentAnalysis.tsx:30 | The scan for the first character `trim` keeps passes over whitespace only and stops at a non-whitespace character or the end. |
| JsStrings.SkipTrailing | SentimentAnalysis.tsx:30 | The scan back from the end passes over whitespace only and stops after a non-whitespace character or at the start. |
| JsStrings.TrimSlice | SentimentAnalysis.tsx:30 | `trim` removes only whitespace, from both ends: the result is a middle slice. |
| JsStrings.TrimIdempotent | SentimentAnalysis.tsx:30 | Trimming twice equals trimming once. |
| JsStrings.TrimKeepsLast | TextSummarization.tsx:42 | Trimming keeps a last character that is not whitespace. |
| JsStrings.ToLowerCase | SentimentAnalysis.tsx:69 | Lower-casing keeps the length and lowers every ASCII letter in place. |
| JsStrings.LowerChar | SentimentAnalysis.tsx:69 | One character lowered: the result is never an upper-case ASCII letter, and the character changes exactly when it is one. |
| JsStrings.Includes | SentimentAnalysis.tsx:69 | `includes`: the word occurs as a contiguous block, and the empty word occurs everywhere. |
| JsStrings.IncludesAt | SentimentAnalysis.tsx:69 | A block found at a position is an occurrence. |
| JsStrings.IncludesWitness | SentimentAnalysis.tsx:69 | Every occurrence is found at some position. Together with IncludesAt this makes `includes` exactly "occurs at some position". |
| JsStrings.PrefixIncludes | SentimentAnalysis.tsx:30 | An occurrence in a prefix is an occurrence in the whole string. |
| JsStrings.IncludesInMiddle | TextSummarization.tsx:37-42 | A word that cannot start in a prefix nor end in a suffix, and occurs in `prefix + t + suffix`, occurs in `t`. |
| JsStrings.MiddleOccurrence | TextSummarization.tsx:37-42 | The position form of the same fact: such an occurrence lies wholly inside `t`. |
| JsStrings.NotIncludedFirstChar | SentimentAnalysis.tsx:69 | A word whose first character is absent from a text does not occur in it. |
| JsStrings.NotIncludedLonger | SentimentAnalysis.tsx:69 | A word longer than a text does not occur in it. |
| JsStrings.IncludesLowered | SentimentAnalysis.tsx:69-71 | A lower-case word found in a text is also found in its lower-cased form. |
| JsStrings.EndsWith | SentimentAnalysis.tsx:29 | `endsWith`: the string's last characters are the suffix. |
| JsStrings.SplitFrom | TextSummarization.tsx:35 | The left-to-right scan of `split` on a literal separator always gives at least one piece. |
| JsStrings.Split | TextSummarization.tsx:35 | `split` on a non-empty literal separator is the scan started with an empty piece. |
| JsStrings.Join | TextSummarization.tsx:43 | `join`: the parts with the separator between each two, and "" for no parts. |
| JsStrings.SplitFromNoSeparator | TextSummarization.tsx:35 | The scan cuts a piece only where no separator starts inside it, so no piece holds the separator. |
| JsStrings.SplitNoSeparator | TextSummarization.tsx:35 | No piece of `split` contains the separator. For a separator that cannot overlap itself, such as "\n" or ". ", this with JoinSplit fixes the pieces. |
| JsStrings.IncludesAcross | TextSummarization.tsx:43 | An occurrence of a word without the character `c` in `a + c + b` lies in `a` or in `b`. |
| JsStrings.JoinExcludes | TextSummarization.tsx:43 | A non-empty word without the separator character that occurs in no part does not occur in their join. |
| JsStrings.JoinNonEmpty | TextSummarization.tsx:43 | A join whose last part is non-empty is non-empty. |
| JsStrings.JoinSplit | TextSummarization.tsx:34-43 | Joining the pieces of a split with the same separator gives back the string. |
| JsStrings.SplitCount | TextSummarization.tsx:121 | Splitting on a character gives one more piece than there are occurrences of it. |
| JsStrings.SplitEndsWithLast | TextSummarization.tsx:34-35 | The string ends with the last piece of its split. |
| JsStrings.JoinEndsWithLast | TextSummarization.tsx:43 | A join ends with its last part. |
| Seqs.Filter | SentimentAnalysis.tsx:30 | `filter` never lengthens its input and keeps only elements satisfying the predicate. |
| Seqs.FilterSubsequence | SentimentAnalysis.tsx:30 | The result of `filter` is a subsequence of its input, so input order is kept. |
| Seqs.FilterComplete | SentimentAnalysis.tsx:30 | Every input element satisfying the predicate is in the result. |
| Seqs.FilterCount | SentimentAnalysis.tsx:30 | The result has exactly as many elements as there are input positions where the predicate holds. |
| Seqs.FilterKeepsLast | TextSummarization.tsx:37-42 | When the last input element is kept, it is the last element of the result. |
| Seqs.FilterPreserves | SentimentAnalysis.tsx:30 | A property shared by every input element is shared by every result element. |
| Seqs.FilterSnoc | SentimentAnalysis.tsx:38 | Filtering a list extended by one element extends the result by that element exactly when it is kept. |
| Seqs.FilterSound | SentimentAnalysis.tsx:30 | Every element of a filter result is an element of the input. |

## Left out

- Network calls are left out: `hf.summarization` and the client in api.ts.
  The service's answer, or its thrown error, is the parameter
  `SummaryResponse`.
- The Chatbot and QuestionAnswering pages are left out. They only guard calls
  to the hosted service.
- The library parsers are not modelled: the CSV library's own parsing and
  `JSON.parse`. Only what they return is modelled, as `CsvParse` and `Option<Json>`.
  `CsvParse.ParseError` stands for the library calling its `error` option.
- `Number()` parsing (hex, exponents, "Infinity") is not modelled. It is the
  parameter `numeric`, of which only `numeric("")` is assumed.
- Asynchronous I/O is left out:
  - `FileReader`, whose `onload` is modelled as the call
    `HandleFileUpload` with the read content;
  - the clipboard, `copyToClipboard` and its `setTimeout`;
  - the `.txt` type check and reading in the summarisation page's
    `handleFileUpload`;
  - the `console.error(err)` logging in `summarizeText`'s `catch`.
- `SummarizeText` runs the request as one step and states only the final
  state. The page really shows `loading` as true while the request is awaited,
  from the start of the request to its `finally`, and that intermediate
  state is not modelled.
- Row bounds come from `Number(input)`. They are modelled as `Option<int>`, so
  NaN and fractional bounds are not modelled.
- Floating point is not modelled: scores are reals, and `toFixed(2)` display
  formatting is left out. The strict bound `score < 1` for Positive holds
  for reals only. In double precision, the draw `1 - 2^-53` gives
  `r * 0.5 + 0.5 = 1 - 2^-54`, which rounds to 1.0. A Positive or Negative text draws
  `Math.random()` twice and the first draw is discarded, so only the draw that
  becomes the score is a parameter.
- `toLowerCase` lowers ASCII letters only; the Unicode case mapping of other
  letters is not modelled. Strings are sequences of code points, so
  `text.length` in UTF-16 units is not modelled.
- JSX rendering, routing and static pages are left out.

=== FILE: ingest.dfy ===
/**
 * Upload normalisation (the file branches of `handleFileUpload` in
 * SentimentAnalysis.tsx): a plain-text, CSV or JSON file becomes an ordered
 * list of trimmed, non-empty documents, or an error message.
 *
 * The CSV and JSON parsers are libraries; what they return for the file is an
 * input here (`CsvParse`, `Json`). Whether `Number(line)` is a number is the
 * parameter `numeric`, of which only `numeric("")` is known (`Number("")` is 0).
 */
module Ingest {
  import opened Optional
  import opened Seqs
  import opened JsStrings

  const CsvErrorMessage: string := "Error parsing CSV file."
  const InvalidJsonMessage: string :=
    "Invalid JSON format. Ensure the file contains an array of objects with a 'text' field."
  const JsonErrorMessage: string := "Error parsing JSON file."
  const UnsupportedMessage: string := "Unsupported file format. Upload CSV, JSON, or TXT."

  /** What an upload yields: the new corpus, or the message shown instead. */
  datatype Upload = Loaded(docs: seq<string>) | Rejected(message: string)

  /** A corpus as every branch leaves it: each document trimmed and non-empty. */
  predicate IsCorpus(docs: seq<string>)
  {
    forall i :: 0 <= i < |docs| ==> docs[i] != [] && IsTrimmed(docs[i])
  }

  predicate NonEmpty(s: string)
  {
    s != []
  }

  /** `lines.map((line) => line.trim())`. */
  function TrimAll(lines: seq<string>): (r: seq<string>)
    ensures |r| == |lines|
    ensures forall i :: 0 <= i < |r| ==> r[i] == Trim(lines[i])
  {
    seq(|lines|, i requires 0 <= i < |lines| => Trim(lines[i]))
  }

  // ---------------------------------------------------------------- .txt

  /** Drops one trailing carriage return: putting it back gives the line again. */
  function DropCarriageReturn(line: string): (r: string)
    ensures line == (if EndsWith(line, "\r") then r + "\r" else r)
  {
    if EndsWith(line, "\r") then line[..|line| - 1] else line
  }

  /**
   * `content.split(/\r?\n/)`: every line feed ends a line, and a carriage
   * return right before it belongs to the line ending; a carriage return at
   * the very end of the content stays in the last line.
   */
  function SplitLines(content: string): (lines: seq<string>)
    ensures |lines| == multiset(content)['\n'] + 1
    ensures var pieces := Split(content, "\n");
            && |lines| == |pieces|
            && (forall i :: 0 <= i < |lines| - 1 ==>
                  pieces[i] == (if EndsWith(pieces[i], "\r") then lines[i] + "\r" else lines[i]))
            && lines[|lines| - 1] == pieces[|pieces| - 1]
  {
    var pieces := Split(content, "\n");
    SplitCount(content, '\n');
    seq(|pieces|, i requires 0 <= i < |pieces| =>
      if i < |pieces| - 1 then DropCarriageReturn(pieces[i]) else pieces[i])
  }

  /** No line holds a line feed: together with SplitLines this fixes every line. */
  lemma LinesHaveNoLineFeed(content: string)
    ensures var lines := SplitLines(content);
            forall i :: 0 <= i < |lines| ==> !Includes(lines[i], "\n")
  {
    var lines, pieces := SplitLines(content), Split(content, "\n");
    SplitNoSeparator(content, "\n");
    forall i | 0 <= i < |lines|
      ensures !Includes(lines[i], "\n")
    {
      assert lines[i] == pieces[i][..|lines[i]|];
      PrefixIncludes(pieces[i], |lines[i]|, "\n");
    }
  }

  /** The filter predicate of the `.txt` branch: `isNaN(Number(line))`. */
  function NotNumeric(numeric: string -> bool): string -> bool
  {
    line => !numeric(line)
  }

  /**
   * The `.txt` branch: trimmed lines, keeping only those `Number` cannot
   * read. The kept lines are exactly the trimmed lines that are not numeric,
   * in file order; none is empty, because `Number("")` is 0.
   */
  function TxtDocuments(content: string, numeric: string -> bool): (docs: seq<string>)
    requires numeric("")
    ensures IsCorpus(docs)
    ensures forall i :: 0 <= i < |docs| ==> !numeric(docs[i])
    ensures var lines := TrimAll(SplitLines(content));
            && IsSubsequence(docs, lines)
            && (forall i :: 0 <= i < |lines| && !numeric(lines[i]) ==> lines[i] in docs)
            && |docs| == |Positions(NotNumeric(numeric), lines)|
  {
    var lines := TrimAll(SplitLines(content));
    var docs := Filter(NotNumeric(numeric), lines);
    FilterPreserves(NotNumeric(numeric), IsTrimmed, lines);
    FilterSubsequence(NotNumeric(numeric), lines);
    FilterComplete(NotNumeric(numeric), lines);
    FilterCount(NotNumeric(numeric), lines);
    assert forall i :: 0 <= i < |docs| ==> !numeric(docs[i]);
    docs
  }

  // ---------------------------------------------------------------- .csv

  /** One parsed CSV record with a header row: column name to cell. */
  type Row = map<string, string>

  /** What the CSV library reports: the parsed records, or its error callback. */
  datatype CsvParse = Parsed(rows: seq<Row>) | ParseError

  /** `row.Text?.trim()`: missing when the record has no `Text` column. */
  function TextField(row: Row): Option<string>
  {
    if "Text" in row then Some(Trim(row["Text"])) else None
  }

  /** `Boolean(v)` for a string or `undefined`. */
  predicate Truthy(v: Option<string>)
  {
    v.Some? && v.value != []
  }

  /** `rows.map((row) => row.Text?.trim())`. */
  function Projection(rows: seq<Row>): (fields: seq<Option<string>>)
    ensures |fields| == |rows|
  {
    seq(|rows|, i requires 0 <= i < |rows| => TextField(rows[i]))
  }

  /** The strings inside a list of present values. */
  function Values(opts: seq<Option<string>>): (vals: seq<string>)
    requires forall i :: 0 <= i < |opts| ==> opts[i].Some?
    ensures |vals| == |opts|
  {
    seq(|opts|, i requires 0 <= i < |opts| => opts[i].value)
  }

  /** A missing value, or a present one without surrounding whitespace. */
  predicate TrimmedIfPresent(v: Option<string>)
  {
    v.Some? ==> IsTrimmed(v.value)
  }

  /**
   * `rows.map((row) => row.Text?.trim()).filter(Boolean)`: every value kept
   * is a trimmed, non-empty `Text`; records without `Text` or with a blank one
   * add nothing (CsvKeepsNonEmptyTexts says exactly what is kept).
   */
  function CsvDocuments(rows: seq<Row>): (docs: seq<string>)
    ensures IsCorpus(docs)
    ensures |docs| <= |rows|
  {
    var fields := Projection(rows);
    var kept := Filter(Truthy, fields);
    assert forall i :: 0 <= i < |fields| ==> TrimmedIfPresent(fields[i]);
    FilterPreserves(Truthy, TrimmedIfPresent, fields);
    Values(kept)
  }

  /** The trimmed `Text` column of a record, or `""` when it lacks one. */
  function TextOf(row: Row): string
  {
    if "Text" in row then Trim(row["Text"]) else ""
  }

  /** The `Text` column of every record, with `""` for a record that lacks it. */
  function TextOrEmpty(rows: seq<Row>): (texts: seq<string>)
    ensures |texts| == |rows|
  {
    seq(|rows|, i requires 0 <= i < |rows| => TextOf(rows[i]))
  }

  /** For one record, keeping a present non-empty `Text` is keeping a non-empty `TextOf`. */
  lemma KeptField(row: Row)
    ensures var field := TextField(row);
            Values(if Truthy(field) then [field] else [])
            == (if NonEmpty(TextOf(row)) then [TextOf(row)] else [])
  {
  }

  /**
   * Dropping `undefined` and `""` together is dropping blank texts: the CSV
   * documents are exactly the non-empty trimmed `Text` values, in record
   * order, as the contract of `Filter` describes them.
   */
  lemma {:induction false} CsvKeepsNonEmptyTexts(rows: seq<Row>)
    ensures CsvDocuments(rows) == Filter(NonEmpty, TextOrEmpty(rows))
    decreases |rows|
  {
    if rows != [] {
      var n := |rows|;
      var init := rows[..n - 1];
      var field, text := TextField(rows[n - 1]), TextOf(rows[n - 1]);
      ProjectionSnoc(rows);
      var keptInit := Filter(Truthy, Projection(init));
      var tail := if Truthy(field) then [field] else [];
      calc {
        CsvDocuments(rows);
        { FilterSnoc(Truthy, Projection(init), field); }
        Values(keptInit + tail);
        { ValuesAppend(keptInit, tail); }
        Values(keptInit) + Values(tail);
        { CsvKeepsNonEmptyTexts(init); KeptField(rows[n - 1]); }
        Filter(NonEmpty, TextOrEmpty(init)) + (if NonEmpty(text) then [text] else []);
        { FilterSnoc(NonEmpty, TextOrEmpty(init), text); }
        Filter(NonEmpty, TextOrEmpty(rows));
      }
    }
  }

  lemma ProjectionSnoc(rows: seq<Row>)
    requires rows != []
    ensures Projection(rows) == Projection(rows[..|rows| - 1]) + [TextField(rows[|rows| - 1])]
    ensures TextOrEmpty(rows) == TextOrEmpty(rows[..|rows| - 1]) + [TextOf(rows[|rows| - 1])]
  {
    var init := rows[..|rows| - 1];
    assert Projection(rows) == Projection(init) + [TextField(rows[|rows| - 1])];
    assert TextOrEmpty(rows) == TextOrEmpty(init) + [TextOf(rows[|rows| - 1])];
  }

  lemma ValuesAppend(a: seq<Option<string>>, b: seq<Option<string>>)
    requires forall i :: 0 <= i < |a| ==> a[i].Some?
    requires forall i :: 0 <= i < |b| ==> b[i].Some?
    ensures Values(a + b) == Values(a) + Values(b)
  {
  }

  // ---------------------------------------------------------------- .json

  /** A value `JSON.parse` can return. */
  datatype Json =
    | JNull
    | JBool(b: bool)
    | JNumber(literal: string)
    | JString(s: string)
    | JArray(items: seq<Json>)
    | JObject(fields: map<string, Json>)

  /** `typeof item.text === "string"` for an item that is not `null`. */
  predicate HasText(item: Json)
  {
    item.JObject? && "text" in item.fields && item.fields["text"].JString?
  }

  /** `item.text` for an item that has a string `text`. */
  function ItemText(item: Json): string
    requires HasText(item)
  {
    item.fields["text"].s
  }

  /** `jsonData.map((item) => item.text.trim())`. */
  function TrimmedTexts(items: seq<Json>): (texts: seq<string>)
    requires forall i :: 0 <= i < |items| ==> HasText(items[i])
    ensures |texts| == |items|
    ensures forall i :: 0 <= i < |texts| ==> texts[i] == Trim(ItemText(items[i])) && IsTrimmed(texts[i])
  {
    seq(|items|, i requires 0 <= i < |items| => Trim(ItemText(items[i])))
  }

  /** How `items.every((item) => typeof item.text === "string")` ends. */
  datatype TextCheck = AllText | MissingText | Throws

  /**
   * `every`, left to right: it stops at the first item without a string
   * `text` and answers false, unless that item is `null`, whose `.text`
   * throws a TypeError.
   */
  function CheckItems(items: seq<Json>): (c: TextCheck)
    ensures c == AllText <==> forall i :: 0 <= i < |items| ==> HasText(items[i])
    ensures c == Throws <==>
              exists i :: 0 <= i < |items| && items[i] == JNull && forall j :: 0 <= j < i ==> HasText(items[j])
    decreases |items|
  {
    if items == [] then AllText
    else if items[0] == JNull then Throws
    else if !HasText(items[0]) then MissingText
    else
      var c := CheckItems(items[1..]);
      assert forall i :: 1 <= i < |items| ==> items[1..][i - 1] == items[i];
      c
  }

  /**
   * `jsonData.map((item) => item.text.trim()).filter(Boolean)`, once every
   * item has a string `text`: the non-empty trimmed texts, in array order.
   */
  function JsonDocuments(items: seq<Json>): (docs: seq<string>)
    requires forall i :: 0 <= i < |items| ==> HasText(items[i])
    ensures IsCorpus(docs)
    ensures var texts := TrimmedTexts(items);
            && IsSubsequence(docs, texts)
            && (forall i :: 0 <= i < |texts| && texts[i] != [] ==> texts[i] in docs)
            && |docs| == |Positions(NonEmpty, texts)|
  {
    var texts := TrimmedTexts(items);
    FilterPreserves(NonEmpty, IsTrimmed, texts);
    FilterSubsequence(NonEmpty, texts);
    FilterComplete(NonEmpty, texts);
    FilterCount(NonEmpty, texts);
    Filter(NonEmpty, texts)
  }

  /**
   * The `.json` branch. `parsed` is what `JSON.parse` returned, or nothing
   * when it threw. Anything but an array whose every item has a string `text`
   * is rejected as a whole; no partial import.
   */
  function JsonUpload(parsed: Option<Json>): (u: Upload)
    ensures u.Loaded? <==> parsed.Some? && parsed.value.JArray? && CheckItems(parsed.value.items) == AllText
    ensures u.Loaded? ==> IsCorpus(u.docs)
    ensures parsed.None? ==> u == Rejected(JsonErrorMessage)
    ensures parsed.Some? && !parsed.value.JArray? ==> u == Rejected(InvalidJsonMessage)
    ensures u.Loaded? ==> u.docs == JsonDocuments(parsed.value.items)
    ensures parsed.Some? && parsed.value.JArray? ==>
              && (CheckItems(parsed.value.items) == MissingText ==> u == Rejected(InvalidJsonMessage))
              && (CheckItems(parsed.value.items) == Throws ==> u == Rejected(JsonErrorMessage))
  {
    match parsed
    case None => Rejected(JsonErrorMessage)
    case Some(value) =>
      if !value.JArray? then Rejected(InvalidJsonMessage)
      else
        match CheckItems(value.items)
        case AllText => Loaded(JsonDocuments(value.items))
        case MissingText => Rejected(InvalidJsonMessage)
        case Throws => Rejected(JsonErrorMessage)
  }

  // ---------------------------------------------------------------- dispatch

  /** A file name ends with at most one of the three extensions, so the order of the tests does not matter. */
  lemma ExtensionsExclusive(name: string)
    ensures EndsWith(name, ".csv") ==> !EndsWith(name, ".txt")
    ensures EndsWith(name, ".json") ==> !EndsWith(name, ".txt") && !EndsWith(name, ".csv")
  {
    var n := |name|;
    if EndsWith(name, ".csv") {
      assert name[n - 3] == ".csv"[1];
    }
    if EndsWith(name, ".json") {
      assert name[n - 4] == ".json"[1];
    }
  }

  /**
   * Choose the branch by the file name's extension, `.txt`, then `.csv`, then
   * `.json`; any other name is rejected. The plain-text branch never fails.
   */
  function NormalizeUpload(name: string, content: string, csv: CsvParse, json: Option<Json>,
                           numeric: string -> bool): (u: Upload)
    requires numeric("")
    ensures u.Loaded? ==> IsCorpus(u.docs)
    ensures EndsWith(name, ".txt") ==> u == Loaded(TxtDocuments(content, numeric))
    ensures EndsWith(name, ".csv") ==> (u.Loaded? <==> csv.Parsed?)
    ensures EndsWith(name, ".csv") && csv.Parsed? ==> u == Loaded(CsvDocuments(csv.rows))
    ensures EndsWith(name, ".csv") && csv.ParseError? ==> u == Rejected(CsvErrorMessage)
    ensures EndsWith(name, ".json") ==> u == JsonUpload(json)
    ensures (!EndsWith(name, ".txt") && !EndsWith(name, ".csv") && !EndsWith(name, ".json"))
              ==> u == Rejected(UnsupportedMessage)
  {
    ExtensionsExclusive(name);
    if EndsWith(name, ".txt") then Loaded(TxtDocuments(content, numeric))
    else if EndsWith(name, ".csv") then
      match csv
      case Parsed(rows) => Loaded(CsvDocuments(rows))
      case ParseError => Rejected(CsvErrorMessage)
    else if EndsWith(name, ".json") then JsonUpload(json)
    else Rejected(UnsupportedMessage)
  }
}

=== FILE: js_strings.dfy ===
/**
 * The JavaScript string operations the page code relies on, over strings as
 * sequences of characters: `trim`, `toLowerCase` (ASCII letters only),
 * `includes`, `endsWith`, `split` with a literal separator and `join`.
 */
module JsStrings {

  /** The characters `String.prototype.trim` removes: ECMAScript WhiteSpace and LineTerminator. */
  predicate IsWhitespace(c: char)
  {
    || c == '\t' || c == '\n' || c == '\U{B}' || c == '\U{C}' || c == '\r' || c == ' '
    || c == '\U{A0}' || c == '\U{1680}' || ('\U{2000}' <= c <= '\U{200A}')
    || c == '\U{2028}' || c == '\U{2029}' || c == '\U{202F}' || c == '\U{205F}'
    || c == '\U{3000}' || c == '\U{FEFF}'
  }

  predicate AllWhitespace(s: string)
  {
    forall i :: 0 <= i < |s| ==> IsWhitespace(s[i])
  }

  /** The first position at or after `i` that does not hold whitespace, or `|s|`. */
  function SkipLeading(s: string, i: nat): (k: nat)
    requires i <= |s|
    ensures i <= k <= |s|
    ensures AllWhitespace(s[i..k])
    ensures k == |s| || !IsWhitespace(s[k])
    decreases |s| - i
  {
    if i < |s| && IsWhitespace(s[i]) then
      var k := SkipLeading(s, i + 1);
      assert s[i..k] == [s[i]] + s[i + 1..k];
      k
    else
      i
  }

  /** Where `s[lo..j]` ends once its trailing whitespace is dropped. */
  function SkipTrailing(s: string, lo: nat, j: nat): (k: nat)
    requires lo <= j <= |s|
    ensures lo <= k <= j
    ensures AllWhitespace(s[k..j])
    ensures k == lo || !IsWhitespace(s[k - 1])
    decreases j
  {
    if lo < j && IsWhitespace(s[j - 1]) then
      var k := SkipTrailing(s, lo, j - 1);
      assert s[k..j] == s[k..j - 1] + [s[j - 1]];
      k
    else
      j
  }

  /** No whitespace at either end: what `trim` leaves. */
  predicate IsTrimmed(s: string)
  {
    s == [] || (!IsWhitespace(s[0]) && !IsWhitespace(s[|s| - 1]))
  }

  /**
   * `s.trim()`: leading and trailing whitespace removed. The result neither
   * starts nor ends with whitespace, and it is empty exactly when `s` is all
   * whitespace.
   */
  function Trim(s: string): (r: string)
    ensures |r| <= |s|
    ensures IsTrimmed(r)
    ensures r == [] <==> AllWhitespace(s)
  {
    var i := SkipLeading(s, 0);
    var j := SkipTrailing(s, i, |s|);
    TrimBounds(s, i, j);
    s[i..j]
  }

  /**
   * Cutting `s` between the first character that is not whitespace and the
   * last one leaves a string trimmed at both ends, empty exactly when
   * everything was whitespace.
   */
  lemma TrimBounds(s: string, i: nat, j: nat)
    requires i <= j <= |s|
    requires AllWhitespace(s[0..i]) && (i == |s| || !IsWhitespace(s[i]))
    requires AllWhitespace(s[j..|s|]) && (j == i || !IsWhitespace(s[j - 1]))
    ensures IsTrimmed(s[i..j])
    ensures s[i..j] == [] <==> AllWhitespace(s)
  {
    if i == j {
      assert s == s[0..i];
    } else {
      assert s[i..j][0] == s[i];
    }
  }

  /** What `trim` removes is whitespace on either side: the result is the middle slice of `s`. */
  lemma TrimSlice(s: string) returns (i: nat, j: nat)
    ensures i <= j <= |s| && Trim(s) == s[i..j]
    ensures AllWhitespace(s[..i]) && AllWhitespace(s[j..])
  {
    i := SkipLeading(s, 0);
    j := SkipTrailing(s, i, |s|);
    assert s[..i] == s[0..i] && s[j..] == s[j..|s|];
  }

  /** Trimming keeps a last character that is not whitespace. */
  lemma TrimKeepsLast(s: string)
    requires s != [] && !IsWhitespace(s[|s| - 1])
    ensures Trim(s) != [] && Trim(s)[|Trim(s)| - 1] == s[|s| - 1]
  {
    var i, j := TrimSlice(s);
    assert j == |s|;
    assert !AllWhitespace(s);
  }

  /** Trimming twice is trimming once. */
  lemma TrimIdempotent(s: string)
    ensures Trim(Trim(s)) == Trim(s)
  {
    var r := Trim(s);
    assert SkipLeading(r, 0) == 0;
    assert SkipTrailing(r, 0, |r|) == |r|;
    assert r[0..|r|] == r;
  }

  /** `c.toLowerCase()` restricted to ASCII: upper-case Latin letters map to lower case. */
  function LowerChar(c: char): (r: char)
    ensures !('A' <= r <= 'Z')
    ensures r != c <==> 'A' <= c <= 'Z'
  {
    if 'A' <= c <= 'Z' then (c as int + 32) as char else c
  }

  /** `s.toLowerCase()`, ASCII only: the same length, every character lowered in place. */
  function ToLowerCase(s: string): (r: string)
    ensures |r| == |s|
    ensures forall i :: 0 <= i < |s| ==> r[i] == LowerChar(s[i])
  {
    seq(|s|, i requires 0 <= i < |s| => LowerChar(s[i]))
  }

  /** `s.includes(w)`: `w` occurs in `s` as a contiguous block (the empty string occurs everywhere). */
  predicate Includes(s: string, w: string)
    decreases |s|
  {
    w <= s || (s != [] && Includes(s[1..], w))
  }

  /** An occurrence at a known position is an occurrence. */
  lemma {:induction false} IncludesAt(s: string, w: string, i: nat)
    requires i + |w| <= |s| && s[i..i + |w|] == w
    ensures Includes(s, w)
    decreases i
  {
    if i == 0 {
      assert w == s[..|w|];
    } else {
      assert s[1..][i - 1..i - 1 + |w|] == s[i..i + |w|];
      IncludesAt(s[1..], w, i - 1);
    }
  }

  /** Every occurrence has a position. */
  lemma {:induction false} IncludesWitness(s: string, w: string) returns (i: nat)
    requires Includes(s, w)
    ensures i + |w| <= |s| && s[i..i + |w|] == w
    decreases |s|
  {
    if w <= s {
      i := 0;
    } else {
      var k := IncludesWitness(s[1..], w);
      assert s[1..][k..k + |w|] == s[k + 1..k + 1 + |w|];
      i := k + 1;
    }
  }

  /** A non-empty word whose first character never appears in `s` does not occur in `s`. */
  lemma {:induction false} NotIncludedFirstChar(s: string, w: string)
    requires w != [] && w[0] !in s
    ensures !Includes(s, w)
    decreases |s|
  {
    if s != [] {
      assert s[0] in s;
      assert forall c :: c in s[1..] ==> c in s;
      NotIncludedFirstChar(s[1..], w);
    }
  }

  /** An occurrence inside a slice of `s` is an occurrence in `s`. */
  lemma IncludesInSlice(s: string, lo: nat, hi: nat, w: string)
    requires lo <= hi <= |s| && Includes(s[lo..hi], w)
    ensures Includes(s, w)
  {
    var k := IncludesWitness(s[lo..hi], w);
    assert k + |w| <= hi - lo;
    var inner, outer := s[lo..hi][k..k + |w|], s[lo + k..lo + k + |w|];
    assert forall t :: 0 <= t < |w| ==> inner[t] == outer[t];
    IncludesAt(s, w, lo + k);
  }

  /** An occurrence in a prefix of `s` is an occurrence in `s`. */
  lemma PrefixIncludes(s: string, hi: nat, w: string)
    requires hi <= |s|
    ensures Includes(s[..hi], w) ==> Includes(s, w)
  {
    if Includes(s[..hi], w) {
      assert s[..hi] == s[0..hi];
      IncludesInSlice(s, 0, hi, w);
    }
  }

  /**
   * An occurrence in `pre + t + post` of a word that cannot start in `pre`
   * nor end in `post` is an occurrence in `t`.
   */
  lemma IncludesInMiddle(pre: string, t: string, post: string, w: string)
    requires w != [] && w[0] !in pre && w[|w| - 1] !in post
    requires Includes(pre + t + post, w)
    ensures Includes(t, w)
  {
    var k := IncludesWitness(pre + t + post, w);
    var i := MiddleOccurrence(pre, t, post, w, k);
    IncludesAt(t, w, i);
  }

  /** The position-level form of IncludesInMiddle: the occurrence at `k` lies inside `t`. */
  lemma MiddleOccurrence(pre: string, t: string, post: string, w: string, k: nat) returns (i: nat)
    requires w != [] && w[0] !in pre && w[|w| - 1] !in post
    requires k + |w| <= |pre + t + post| && (pre + t + post)[k..k + |w|] == w
    ensures i + |w| <= |t| && t[i..i + |w|] == w
  {
    var b := pre + t + post;
    var n := |w|;
    assert b[k] == w[0] && b[k + n - 1] == w[n - 1] by {
      assert b[k..k + n][0] == b[k] && b[k..k + n][n - 1] == b[k + n - 1];
    }
    assert forall j :: 0 <= j < |pre| ==> b[j] == pre[j];
    assert forall j :: 0 <= j < |t| ==> b[|pre| + j] == t[j];
    assert forall j :: |pre| + |t| <= j < |b| ==> b[j] == post[j - |pre| - |t|];
    assert |pre| <= k;
    assert k + n <= |pre| + |t|;
    i := k - |pre|;
    assert t[i..i + n] == b[k..k + n];
  }

  /**
   * A word with no upper-case letters that occurs in `s` also occurs in the
   * lower-cased `s`: a case-sensitive hit is always a case-insensitive hit.
   */
  lemma {:induction false} IncludesLowered(s: string, w: string)
    requires ToLowerCase(w) == w && Includes(s, w)
    ensures Includes(ToLowerCase(s), w)
    decreases |s|
  {
    if w <= s {
      assert ToLowerCase(s)[..|w|] == ToLowerCase(w);
    } else {
      IncludesLowered(s[1..], w);
      assert ToLowerCase(s)[1..] == ToLowerCase(s[1..]);
    }
  }

  /** A word longer than `s` does not occur in it. */
  lemma {:induction false} NotIncludedLonger(s: string, w: string)
    requires |s| < |w|
    ensures !Includes(s, w)
    decreases |s|
  {
    if s != [] {
      NotIncludedLonger(s[1..], w);
    }
  }

  /** `s.endsWith(suffix)`. */
  predicate EndsWith(s: string, suffix: string)
  {
    |suffix| <= |s| && s[|s| - |suffix|..] == suffix
  }

  /** A non-empty suffix ends with the string's last character. */
  lemma EndsWithLastChar(s: string, suffix: string)
    requires EndsWith(s, suffix) && suffix != []
    ensures suffix[|suffix| - 1] == s[|s| - 1]
  {
    assert suffix[|suffix| - 1] == s[|s| - |suffix|..][|suffix| - 1];
  }

  /**
   * `s.split(sep)` for a non-empty literal separator, scanning left to right:
   * `cur` is the piece read so far. Every separator ends a piece, so there is
   * always at least one piece.
   */
  function SplitFrom(s: string, sep: string, cur: string): (r: seq<string>)
    requires sep != []
    ensures r != []
    decreases |s|
  {
    if sep <= s then [cur] + SplitFrom(s[|sep|..], sep, [])
    else if s == [] then [cur]
    else SplitFrom(s[1..], sep, cur + [s[0]])
  }

  function Split(s: string, sep: string): seq<string>
    requires sep != []
  {
    SplitFrom(s, sep, [])
  }

  /** `parts.join(sep)`; the empty array joins to the empty string. */
  function Join(parts: seq<string>, sep: string): string
    decreases |parts|
  {
    if parts == [] then []
    else if |parts| == 1 then parts[0]
    else parts[0] + sep + Join(parts[1..], sep)
  }

  /** A join ends with its last part. */
  lemma {:induction false} JoinEndsWithLast(parts: seq<string>, sep: string)
    requires parts != []
    ensures EndsWith(Join(parts, sep), parts[|parts| - 1])
    decreases |parts|
  {
    if |parts| > 1 {
      JoinEndsWithLast(parts[1..], sep);
      var rest := Join(parts[1..], sep);
      assert Join(parts, sep) == parts[0] + sep + rest;
      assert (parts[0] + sep + rest)[|parts[0] + sep + rest| - |rest|..] == rest;
    }
  }

  /** A join whose last part is non-empty is non-empty. */
  lemma JoinNonEmpty(parts: seq<string>, sep: string)
    ensures parts != [] && parts[|parts| - 1] != [] ==> Join(parts, sep) != []
  {
    if parts != [] {
      JoinEndsWithLast(parts, sep);
    }
  }

  /** The last piece of a split is a suffix of the string. */
  lemma SplitEndsWithLast(s: string, sep: string)
    requires sep != []
    ensures var pieces := Split(s, sep); EndsWith(s, pieces[|pieces| - 1])
  {
    JoinSplit(s, sep);
    JoinEndsWithLast(Split(s, sep), sep);
  }

  /** A joined string ends with every suffix of its last part. */
  lemma JoinEndsWithSuffixOfLast(parts: seq<string>, sep: string, suffix: string)
    requires parts != [] && EndsWith(parts[|parts| - 1], suffix)
    ensures EndsWith(Join(parts, sep), suffix)
  {
    JoinEndsWithLast(parts, sep);
    var j, last := Join(parts, sep), parts[|parts| - 1];
    assert j[|j| - |suffix|..] == j[|j| - |last|..][|last| - |suffix|..];
  }

  /** Joining a part in front of a non-empty list puts the separator between them. */
  lemma JoinCons(first: string, rest: seq<string>, sep: string)
    requires rest != []
    ensures Join([first] + rest, sep) == first + sep + Join(rest, sep)
  {
    assert ([first] + rest)[1..] == rest;
  }

  lemma {:induction false} JoinSplitFrom(s: string, sep: string, cur: string)
    requires sep != []
    ensures Join(SplitFrom(s, sep, cur), sep) == cur + s
    decreases |s|
  {
    if sep <= s {
      var tail := s[|sep|..];
      var rest := SplitFrom(tail, sep, []);
      calc {
        Join(SplitFrom(s, sep, cur), sep);
        Join([cur] + rest, sep);
        { JoinCons(cur, rest, sep); }
        cur + sep + Join(rest, sep);
        { JoinSplitFrom(tail, sep, []); assert [] + tail == tail; }
        cur + sep + tail;
        { assert sep + tail == s; }
        cur + s;
      }
    } else if s != [] {
      var tail, next := s[1..], cur + [s[0]];
      calc {
        Join(SplitFrom(s, sep, cur), sep);
        Join(SplitFrom(tail, sep, next), sep);
        { JoinSplitFrom(tail, sep, next); }
        next + tail;
        cur + s;
      }
    }
  }

  /** Joining the pieces of a split with the same separator gives back the string. */
  lemma JoinSplit(s: string, sep: string)
    requires sep != []
    ensures Join(Split(s, sep), sep) == s
  {
    JoinSplitFrom(s, sep, []);
  }

  /** `sep` starts at position `t` of `s`. */
  predicate SeparatorAt(s: string, sep: string, t: nat)
  {
    t <= |s| && sep <= s[t..]
  }

  /** An occurrence of `sep` inside `cur` is an occurrence that starts inside `cur` in `cur + s`. */
  lemma SeparatorInPrefix(cur: string, s: string, sep: string)
    requires sep != []
    ensures Includes(cur, sep) ==> exists t :: 0 <= t < |cur| && SeparatorAt(cur + s, sep, t)
  {
    if Includes(cur, sep) {
      var t := IncludesWitness(cur, sep);
      assert (cur + s)[t..][..|sep|] == cur[t..t + |sep|];
      assert SeparatorAt(cur + s, sep, t);
    }
  }

  /**
   * The scan cuts a piece only where no separator starts inside it: when no
   * separator starts inside `cur` in `cur + s`, no piece holds the separator.
   */
  lemma {:induction false} SplitFromNoSeparator(s: string, sep: string, cur: string)
    requires sep != []
    requires forall t :: 0 <= t < |cur| ==> !SeparatorAt(cur + s, sep, t)
    ensures forall i :: 0 <= i < |SplitFrom(s, sep, cur)| ==> !Includes(SplitFrom(s, sep, cur)[i], sep)
    decreases |s|
  {
    SeparatorInPrefix(cur, s, sep);
    if sep <= s {
      var tail := s[|sep|..];
      var rest := SplitFrom(tail, sep, []);
      SplitFromNoSeparator(tail, sep, []);
      assert !Includes(cur, sep);
      assert SplitFrom(s, sep, cur) == [cur] + rest;
      assert forall i :: 1 <= i <= |rest| ==> ([cur] + rest)[i] == rest[i - 1];
    } else if s != [] {
      var next := cur + [s[0]];
      assert next + s[1..] == cur + s;
      assert SeparatorAt(cur + s, sep, |cur|) == (sep <= s) by {
        assert (cur + s)[|cur|..] == s;
      }
      var tail := s[1..];
      SplitFromNoSeparator(tail, sep, next);
      assert SplitFrom(s, sep, cur) == SplitFrom(tail, sep, next);
    }
  }

  /** No piece of `s.split(sep)` contains the separator. */
  lemma SplitNoSeparator(s: string, sep: string)
    requires sep != []
    ensures var pieces := Split(s, sep); forall i :: 0 <= i < |pieces| ==> !Includes(pieces[i], sep)
  {
    SplitFromNoSeparator(s, sep, []);
    assert Split(s, sep) == SplitFrom(s, sep, []);
  }

  /** An occurrence of a word without the character `c` in `a + [c] + b` lies in `a` or in `b`. */
  lemma IncludesAcross(a: string, c: char, b: string, w: string)
    requires c !in w
    ensures Includes(a + [c] + b, w) ==> Includes(a, w) || Includes(b, w)
  {
    if Includes(a + [c] + b, w) {
      var x := a + [c] + b;
      var k := IncludesWitness(x, w);
      var n := |w|;
      forall j | 0 <= j < n
        ensures w[j] == x[k + j]
      {
        assert x[k..k + n][j] == x[k + j];
      }
      assert x[|a|] == c;
      if k + n <= |a| {
        assert x[k..k + n] == a[k..k + n];
        IncludesAt(a, w, k);
      } else {
        assert |a| < k;
        assert x[k..k + n] == b[k - |a| - 1..k - |a| - 1 + n];
        IncludesAt(b, w, k - |a| - 1);
      }
    }
  }

  /** A non-empty word without the separator character that occurs in no part does not occur in their join. */
  lemma {:induction false} JoinExcludes(parts: seq<string>, c: char, w: string)
    requires w != [] && c !in w
    requires forall i :: 0 <= i < |parts| ==> !Includes(parts[i], w)
    ensures !Includes(Join(parts, [c]), w)
    decreases |parts|
  {
    if |parts| > 1 {
      JoinExcludes(parts[1..], c, w);
      IncludesAcross(parts[0], c, Join(parts[1..], [c]), w);
      assert Join(parts, [c]) == parts[0] + [c] + Join(parts[1..], [c]);
    }
  }

  lemma {:induction false} SplitFromCount(s: string, c: char, cur: string)
    ensures |SplitFrom(s, [c], cur)| == multiset(s)[c] + 1
    decreases |s|
  {
    if s != [] {
      assert s == [s[0]] + s[1..];
      SplitFromCount(s[1..], c, if s[0] == c then [] else cur + [s[0]]);
    }
  }

  /** Splitting on one character yields one more piece than there are occurrences of it. */
  lemma SplitCount(s: string, c: char)
    ensures |Split(s, [c])| == multiset(s)[c] + 1
  {
    SplitFromCount(s, c, []);
  }
}

=== FILE: optional.dfy ===
/** A value that may be missing: JavaScript's `undefined` / `null` next to a present value. */
module Optional {

  datatype Option<+T> = None | Some(value: T)
}

=== FILE: sentiment.dfy ===
/**
 * The keyword heuristic that labels a text Positive, Negative or Neutral
 * (`analyzeSentiment` in SentimentAnalysis.tsx). Classification lowers the
 * text; the word quoted in the reason is searched for again in the original,
 * case-sensitive text, so it can be missing (rendered as "undefined").
 * The random confidence draw is the parameter `r`.
 */
module Sentiment {
  import opened Optional
  import opened JsStrings

  datatype Label = Positive | Negative | Neutral

  /** One analysed document: the text as given, its label, a justification and a confidence score. */
  datatype SentimentResult = SentimentResult(text: string, sentiment: Label, reason: string, score: real)

  const PositiveWords: seq<string> := ["good", "happy", "amazing", "love", "great", "excellent", "wonderful"]
  const NegativeWords: seq<string> := ["bad", "sad", "terrible", "hate", "awful", "horrible"]
  const NeutralReason: string := "Balanced or mixed sentiment."

  /** `words.some((word) => text.includes(word))`. */
  predicate SomeIncluded(words: seq<string>, text: string)
  {
    exists i :: 0 <= i < |words| && Includes(text, words[i])
  }

  /**
   * The index `find` stops at: every earlier word is absent from `text`, and
   * the word there, if any, occurs in it.
   */
  function FirstIncluded(words: seq<string>, text: string): (k: nat)
    ensures k <= |words|
    ensures forall j :: 0 <= j < k ==> !Includes(text, words[j])
    ensures k < |words| ==> Includes(text, words[k])
    decreases |words|
  {
    if words == [] || Includes(text, words[0]) then 0
    else
      var k := FirstIncluded(words[1..], text);
      assert forall j :: 1 <= j < |words| ==> words[1..][j - 1] == words[j];
      k + 1
  }

  /**
   * `words.find((word) => text.includes(word))`: the first word, in list
   * order, that occurs in `text`, or nothing when none does.
   */
  function FindIncluded(words: seq<string>, text: string): (r: Option<string>)
    ensures r.None? <==> !SomeIncluded(words, text)
    ensures r.Some? ==> Includes(text, r.value) && r.value == words[FirstIncluded(words, text)]
  {
    var k := FirstIncluded(words, text);
    if k < |words| then Some(words[k]) else None
  }

  /** How a template literal renders the result of `find`: a missing word prints as "undefined". */
  function Describe(word: Option<string>): string
  {
    match word
    case Some(w) => w
    case None => "undefined"
  }

  function PositiveReason(text: string): string
  {
    "Contains optimistic words like \"" + Describe(FindIncluded(PositiveWords, text)) + "\"."
  }

  function NegativeReason(text: string): string
  {
    "Contains negative words like \"" + Describe(FindIncluded(NegativeWords, text)) + "\"."
  }

  /**
   * `analyzeSentiment(text)` with the score's random draw `r` in [0, 1).
   * The label is decided on the lower-cased text, positive words first; the
   * reason quotes the first list word found case-sensitively in `text`; the
   * score lies in [0.5, 1) for Positive, in [0, 0.5) for Negative and is the
   * draw itself for Neutral. The text is returned unchanged.
   */
  function AnalyzeSentiment(text: string, r: real): (res: SentimentResult)
    requires 0.0 <= r < 1.0
    ensures res.text == text
    ensures res.sentiment == Positive <==> SomeIncluded(PositiveWords, ToLowerCase(text))
    ensures res.sentiment == Negative <==>
              !SomeIncluded(PositiveWords, ToLowerCase(text)) && SomeIncluded(NegativeWords, ToLowerCase(text))
    ensures res.sentiment == Positive ==> res.reason == PositiveReason(text) && 0.5 <= res.score < 1.0
    ensures res.sentiment == Negative ==> res.reason == NegativeReason(text) && 0.0 <= res.score < 0.5
    ensures res.sentiment == Neutral ==> res.reason == NeutralReason && res.score == r
  {
    var lower := ToLowerCase(text);
    if SomeIncluded(PositiveWords, lower) then
      SentimentResult(text, Positive, PositiveReason(text), r * 0.5 + 0.5)
    else if SomeIncluded(NegativeWords, lower) then
      SentimentResult(text, Negative, NegativeReason(text), r * 0.5)
    else
      SentimentResult(text, Neutral, NeutralReason, r)
  }

  /** Every record the scorer produces keeps the score band of its label. */
  predicate WellFormed(res: SentimentResult)
  {
    && 0.0 <= res.score < 1.0
    && (res.sentiment == Positive ==> 0.5 <= res.score)
    && (res.sentiment == Negative ==> res.score < 0.5)
  }

  lemma AnalyzeSentimentWellFormed(text: string, r: real)
    requires 0.0 <= r < 1.0
    ensures WellFormed(AnalyzeSentiment(text, r))
  {
  }

  /** All marker words are written in lower case. */
  lemma MarkerWordsLowerCase()
    ensures forall i :: 0 <= i < |PositiveWords| ==> ToLowerCase(PositiveWords[i]) == PositiveWords[i]
    ensures forall i :: 0 <= i < |NegativeWords| ==> ToLowerCase(NegativeWords[i]) == NegativeWords[i]
  {
    forall i | 0 <= i < |PositiveWords|
      ensures ToLowerCase(PositiveWords[i]) == PositiveWords[i]
    {
      var w := PositiveWords[i];
      assert forall k :: 0 <= k < |w| ==> 'a' <= w[k] <= 'z';
    }
    forall i | 0 <= i < |NegativeWords|
      ensures ToLowerCase(NegativeWords[i]) == NegativeWords[i]
    {
      var w := NegativeWords[i];
      assert forall k :: 0 <= k < |w| ==> 'a' <= w[k] <= 'z';
    }
  }

  /**
   * When the reason names a positive word, the text is labelled Positive;
   * when it names a negative word, the text is labelled Positive or Negative,
   * never Neutral: a case-sensitive hit is also a case-insensitive one.
   */
  lemma ReasonWordAgreesWithLabel(text: string, r: real)
    requires 0.0 <= r < 1.0
    ensures FindIncluded(PositiveWords, text).Some? ==> AnalyzeSentiment(text, r).sentiment == Positive
    ensures FindIncluded(NegativeWords, text).Some? ==> AnalyzeSentiment(text, r).sentiment != Neutral
  {
    MarkerWordsLowerCase();
    var lower := ToLowerCase(text);
    var p := FirstIncluded(PositiveWords, text);
    if p < |PositiveWords| {
      IncludesLowered(text, PositiveWords[p]);
      assert SomeIncluded(PositiveWords, lower);
    }
    var n := FirstIncluded(NegativeWords, text);
    if n < |NegativeWords| {
      IncludesLowered(text, NegativeWords[n]);
      assert SomeIncluded(NegativeWords, lower);
    }
  }

  /**
   * A text with no lower-case letter can still be Positive ("GOOD"), but then
   * no list word occurs in it case-sensitively, and the reason quotes
   * "undefined".
   */
  lemma UpperCaseReasonIsUndefined(text: string, r: real)
    requires 0.0 <= r < 1.0
    requires forall k :: 0 <= k < |text| ==> !('a' <= text[k] <= 'z')
    requires SomeIncluded(PositiveWords, ToLowerCase(text))
    ensures AnalyzeSentiment(text, r).sentiment == Positive
    ensures AnalyzeSentiment(text, r).reason == "Contains optimistic words like \"undefined\"."
  {
    NoWordStartsUpperCase(PositiveWords, text);
    UndefinedPositiveReason(text);
  }

  /** No word starting with a lower-case letter occurs in a text without lower-case letters. */
  lemma NoWordStartsUpperCase(words: seq<string>, text: string)
    requires forall i :: 0 <= i < |words| ==> words[i] != [] && 'a' <= words[i][0] <= 'z'
    requires forall k :: 0 <= k < |text| ==> !('a' <= text[k] <= 'z')
    ensures !SomeIncluded(words, text)
  {
    forall i | 0 <= i < |words|
      ensures !Includes(text, words[i])
    {
      NotIncludedFirstChar(text, words[i]);
    }
  }

  /** The positive reason template filled with "undefined". */
  lemma UndefinedQuoted()
    ensures "Contains optimistic words like \"" + Describe(None) + "\"." == "Contains optimistic words like \"undefined\"."
  {
    var lhs, rhs := "Contains optimistic words like \"" + "undefined" + "\".", "Contains optimistic words like \"undefined\".";
    assert |lhs| == |rhs|;
    forall k | 0 <= k < |lhs|
      ensures lhs[k] == rhs[k]
    {
    }
  }

  /** When `find` finds no positive word, the reason quotes "undefined". */
  lemma UndefinedPositiveReason(text: string)
    requires !SomeIncluded(PositiveWords, text)
    ensures PositiveReason(text) == "Contains optimistic words like \"undefined\"."
  {
    assert FindIncluded(PositiveWords, text) == None;
    UndefinedQuoted();
  }

  /** The smallest such case. */
  lemma ShoutedGood(r: real)
    requires 0.0 <= r < 1.0
    ensures AnalyzeSentiment("GOOD", r).reason == "Contains optimistic words like \"undefined\"."
  {
    var text := "GOOD";
    assert ToLowerCase(text) == "good" by {
      var lower := ToLowerCase(text);
      assert lower[0] == 'g' && lower[1] == 'o' && lower[2] == 'o' && lower[3] == 'd';
    }
    assert Includes("good", PositiveWords[0]);
    UpperCaseReasonIsUndefined(text, r);
  }
}

=== FILE: sentiment_page.dfy ===
/**
 * The state of the sentiment page (`SentimentAnalysis` in
 * SentimentAnalysis.tsx): the typed text, the uploaded corpus, the selected
 * row range, the displayed results and the error message, with the three
 * actions that change them: uploading a file, analysing a row range and
 * analysing the typed text.
 */
module SentimentPage {
  import opened Optional
  import opened JsStrings
  import opened Sentiment
  import opened Ingest

  const InvalidRowsMessage: string := "Please enter valid row numbers."
  const EmptyTextMessage: string := "Please enter text."

  /** A file picked in the upload input: its name and its text as read. */
  datatype UploadedFile = UploadedFile(name: string, content: string)

  /** Random draws: `rand(i)` is the draw the i-th scored document receives. */
  ghost predicate IsDrawSource(rand: nat -> real)
  {
    forall i: nat :: 0.0 <= rand(i) < 1.0
  }

  /** The rows `start..end`, both included, exist in a corpus of `n` documents. */
  predicate ValidRange(start: Option<int>, end: Option<int>, n: nat)
  {
    start.Some? && end.Some? && 0 <= start.value <= end.value < n
  }

  /**
   * `docs.map(analyzeSentiment)`: one record per document, in order, each
   * for its own document and with the score band of its label.
   */
  function AnalyzeAll(docs: seq<string>, rand: nat -> real): (results: seq<SentimentResult>)
    requires IsDrawSource(rand)
    ensures |results| == |docs|
    ensures forall i :: 0 <= i < |docs| ==> results[i].text == docs[i] && WellFormed(results[i])
    ensures forall i :: 0 <= i < |docs| ==> results[i] == AnalyzeSentiment(docs[i], rand(i))
  {
    seq(|docs|, i requires 0 <= i < |docs| => AnalyzeSentiment(docs[i], rand(i)))
  }

  class SentimentAnalysisPage {
    var textInput: string
    var results: seq<SentimentResult>
    var error: Option<string>
    var uploadedData: seq<string>
    var startRow: Option<int>
    var endRow: Option<int>

    /** The corpus holds trimmed non-empty documents; every result keeps its label's score band. */
    ghost predicate Valid()
      reads this
    {
      CorpusValid() && ResultsValid()
    }

    ghost predicate CorpusValid()
      reads this`uploadedData
    {
      IsCorpus(uploadedData)
    }

    ghost predicate ResultsValid()
      reads this`results
    {
      forall i :: 0 <= i < |results| ==> WellFormed(results[i])
    }

    constructor ()
      ensures Valid()
      ensures textInput == [] && results == [] && error == None && uploadedData == []
      ensures startRow == None && endRow == None
    {
      textInput, results, error, uploadedData := [], [], None, [];
      startRow, endRow := None, None;
    }

    /**
     * `handleFileUpload`, once the file is read. `csv` and `json` are what the
     * CSV library and `JSON.parse` make of its content. The error is cleared,
     * then the corpus is replaced, or the error is set and the corpus kept.
     * Results are never touched by an upload.
     */
    method HandleFileUpload(file: Option<UploadedFile>, csv: CsvParse, json: Option<Json>,
                            numeric: string -> bool)
      requires Valid() && numeric("")
      modifies this`uploadedData, this`error
      ensures Valid()
      ensures file.None? ==> uploadedData == old(uploadedData) && error == old(error)
      ensures file.Some? ==>
                match NormalizeUpload(file.value.name, file.value.content, csv, json, numeric)
                case Loaded(docs) => uploadedData == docs && error == None
                case Rejected(message) => uploadedData == old(uploadedData) && error == Some(message)
    {
      if file.None? {
        return;
      }
      var upload := NormalizeUpload(file.value.name, file.value.content, csv, json, numeric);
      ApplyUpload(upload);
    }

    /** The state change of an upload once its outcome is known. */
    method ApplyUpload(upload: Upload)
      requires Valid() && (upload.Loaded? ==> IsCorpus(upload.docs))
      modifies this`uploadedData, this`error
      ensures Valid()
      ensures upload.Loaded? ==> uploadedData == upload.docs && error == None
      ensures upload.Rejected? ==> uploadedData == old(uploadedData) && error == Some(upload.message)
    {
      error := None;
      match upload
      case Loaded(docs) =>
        uploadedData := docs;
      case Rejected(message) =>
        error := Some(message);
    }

    /**
     * `analyzeRows`: rows outside the corpus or out of order set the error and
     * leave the results; otherwise the results become one record per selected
     * row, in order, and the error is cleared.
     */
    method AnalyzeRows(rand: nat -> real)
      requires Valid() && IsDrawSource(rand)
      modifies this`results, this`error
      ensures Valid()
      ensures !ValidRange(startRow, endRow, |uploadedData|) ==>
                error == Some(InvalidRowsMessage) && results == old(results)
      ensures ValidRange(startRow, endRow, |uploadedData|) ==>
                && error == None
                && results == AnalyzeAll(uploadedData[startRow.value..endRow.value + 1], rand)
                && |results| == endRow.value - startRow.value + 1
                && forall i :: 0 <= i < |results| ==> results[i].text == uploadedData[startRow.value + i]
    {
      if startRow.None? || endRow.None? || startRow.value < 0 || endRow.value >= |uploadedData|
         || startRow.value > endRow.value
      {
        error := Some(InvalidRowsMessage);
        return;
      }
      var selected := uploadedData[startRow.value..endRow.value + 1];
      var scored := AnalyzeAll(selected, rand);
      assert forall i :: 0 <= i < |scored| ==> scored[i].text == uploadedData[startRow.value + i];
      results, error := scored, None;
    }

    /**
     * `analyzeText`: blank input sets the error and leaves the results;
     * otherwise the results become the single record for the untrimmed input.
     * A success does not clear an earlier error.
     */
    method AnalyzeText(r: real)
      requires Valid() && 0.0 <= r < 1.0
      modifies this`results, this`error
      ensures Valid()
      ensures AllWhitespace(textInput) ==> error == Some(EmptyTextMessage) && results == old(results)
      ensures !AllWhitespace(textInput) ==>
                results == [AnalyzeSentiment(textInput, r)] && error == old(error)
    {
      // `!textInput.trim()`: Trim gives "" exactly for all-whitespace text
      if AllWhitespace(textInput) {
        error := Some(EmptyTextMessage);
        return;
      }
      var res := AnalyzeSentiment(textInput, r);
      AnalyzeSentimentWellFormed(textInput, r);
      results := [res];
    }
  }

  /**
   * Neither "bad day" nor its lower-cased form holds a positive word. The
   * text is described character by character rather than as the literal
   * "bad day", so that the verifier does not evaluate `includes` on literals
   * for every word; GoodDayBadDay calls it with "bad day".
   */
  lemma NoPositiveInBadDay(s: string)
    requires |s| == 7 && s[0] == 'b' && s[1] == 'a' && s[2] == 'd' && s[3] == ' '
    requires s[4] == 'd' && s[5] == 'a' && s[6] == 'y'
    ensures ToLowerCase(s) == s
    ensures !SomeIncluded(PositiveWords, s)
  {
    var lower := ToLowerCase(s);
    assert forall k :: 0 <= k < |lower| ==> lower[k] == s[k];
    var w := PositiveWords;
    NotIncludedFirstChar(s, w[0]);
    NotIncludedFirstChar(s, w[1]);
    NotIncludedLonger(s[1..], w[2]);
    NotIncludedFirstChar(s, w[3]);
    NotIncludedFirstChar(s, w[4]);
    NotIncludedFirstChar(s, w[5]);
    NotIncludedFirstChar(s, w[6]);
  }

  /** Scoring the corpus ["good day", "bad day"] labels it Positive, then Negative. */
  lemma GoodDayBadDay(rand: nat -> real)
    requires IsDrawSource(rand)
    ensures var results := AnalyzeAll(["good day", "bad day"], rand);
            results[0].sentiment == Positive && results[1].sentiment == Negative
  {
    var lower := ToLowerCase("good day");
    assert forall k :: 0 <= k < |lower| ==> lower[k] == "good day"[k];
    assert Includes(lower, PositiveWords[0]);
    NoPositiveInBadDay("bad day");
    assert Includes("bad day", NegativeWords[0]);
  }
}

=== FILE: seqs.dfy ===
/**
 * Sequence operations the page code uses through `Array.prototype.filter`,
 * together with the predicates that say what a filter result is.
 */
module Seqs {

  /** The positions of `s` whose element satisfies `p`. */
  ghost function Positions<T>(p: T -> bool, s: seq<T>): set<nat>
  {
    set i: nat | i < |s| && p(s[i])
  }

  /** `r` can be obtained from `s` by deleting elements, keeping the order of the rest. */
  ghost predicate IsSubsequence<T>(r: seq<T>, s: seq<T>)
    decreases |s|
  {
    if r == [] then true
    else if s == [] then false
    else
      (r[|r| - 1] == s[|s| - 1] && IsSubsequence(r[..|r| - 1], s[..|s| - 1]))
      || IsSubsequence(r, s[..|s| - 1])
  }

  /**
   * `s.filter(p)`: the elements of `s` that satisfy `p`, in their order in
   * `s`. FilterSubsequence, FilterComplete and FilterCount state that the
   * result is the whole selection and nothing else.
   */
  function Filter<T>(p: T -> bool, s: seq<T>): (r: seq<T>)
    ensures |r| <= |s|
    ensures forall i :: 0 <= i < |r| ==> p(r[i])
    decreases |s|
  {
    if s == [] then []
    else
      var kept := Filter(p, s[..|s| - 1]);
      if p(s[|s| - 1]) then kept + [s[|s| - 1]] else kept
  }

  /** The result of a filter is a subsequence of its input. */
  lemma {:induction false} FilterSubsequence<T>(p: T -> bool, s: seq<T>)
    ensures IsSubsequence(Filter(p, s), s)
    decreases |s|
  {
    if s != [] {
      var init, last := s[..|s| - 1], s[|s| - 1];
      var kept := Filter(p, init);
      FilterSubsequence(p, init);
      if p(last) {
        assert (kept + [last])[..|kept|] == kept;
      }
    }
  }

  /** Every element of the input that satisfies the predicate is in the result. */
  lemma {:induction false} FilterComplete<T>(p: T -> bool, s: seq<T>)
    ensures forall i :: 0 <= i < |s| && p(s[i]) ==> s[i] in Filter(p, s)
    decreases |s|
  {
    if s != [] {
      var init := s[..|s| - 1];
      FilterComplete(p, init);
      assert forall i :: 0 <= i < |init| ==> s[i] == init[i];
    }
  }

  /** The result has one element per position of the input where the predicate holds. */
  lemma {:induction false} FilterCount<T>(p: T -> bool, s: seq<T>)
    ensures |Filter(p, s)| == |Positions(p, s)|
    decreases |s|
  {
    if s == [] {
      assert Positions(p, s) == {};
    } else {
      var init, last := s[..|s| - 1], s[|s| - 1];
      FilterCount(p, init);
      assert Positions(p, s) == Positions(p, init) + (if p(last) then {|s| - 1} else {});
    }
  }

  /** Filtering a sequence extended by one element extends the filtered sequence by that element when it is kept. */
  lemma FilterSnoc<T>(p: T -> bool, s: seq<T>, x: T)
    ensures Filter(p, s + [x]) == Filter(p, s) + (if p(x) then [x] else [])
  {
    assert (s + [x])[..|s|] == s;
  }

  /** When the last element is kept, it is the last element of the result. */
  lemma FilterKeepsLast<T>(p: T -> bool, s: seq<T>)
    requires s != [] && p(s[|s| - 1])
    ensures var r := Filter(p, s); r != [] && r[|r| - 1] == s[|s| - 1]
  {
  }

  /** Every element of a filter result has each property that every element of the input has. */
  lemma FilterPreserves<T>(p: T -> bool, q: T -> bool, s: seq<T>)
    requires forall i :: 0 <= i < |s| ==> q(s[i])
    ensures forall i :: 0 <= i < |Filter(p, s)| ==> q(Filter(p, s)[i])
  {
    FilterSound(p, s);
  }

  /** Every element of a filter result is an element of the input. */
  lemma {:induction false} FilterSound<T>(p: T -> bool, s: seq<T>)
    ensures forall i :: 0 <= i < |Filter(p, s)| ==> Filter(p, s)[i] in s
    decreases |s|
  {
    if s != [] {
      var init := s[..|s| - 1];
      FilterSound(p, init);
      assert s == init + [s[|s| - 1]];
    }
  }
}

=== FILE: summarization.dfy ===
/**
 * The summarisation page (TextSummarization.tsx): the guard on the input,
 * the handling of the service's answer, the formatting of the summary into
 * bullet lines, and the word count shown under the input. The call to the
 * hosted model is replaced by its answer, given as a parameter.
 */
module Summarization {
  import opened Optional
  import opened Seqs
  import opened JsStrings

  const EmptyInputMessage: string := "⚠️ Please enter some text to summarize."
  const FailedMessage: string := "❌ Failed to generate summary. Please try again."
  const UnexpectedMessage: string := "❌ An unexpected error occurred."

  /** Boilerplate sentences the model copies from news pages. */
  const MailOnlineBoilerplate: string := "Back to Mail Online home"
  const PageBoilerplate: string := "back to the page you came from"

  /** The filter of the formatter: a non-empty piece holding neither boilerplate sentence. */
  predicate KeepPoint(point: string)
  {
    |point| > 0 && !Includes(point, MailOnlineBoilerplate) && !Includes(point, PageBoilerplate)
  }

  /** `` `🔹 ${point.trim()}.` `` */
  function BulletPoint(point: string): string
  {
    "🔹 " + Trim(point) + "."
  }

  /** The pieces of `summary_text.split(". ")` that the formatter keeps, in order. */
  function KeptPoints(summaryText: string): (points: seq<string>)
    ensures |points| <= |Split(summaryText, ". ")|
    ensures IsSubsequence(points, Split(summaryText, ". "))
    ensures forall i :: 0 <= i < |points| ==>
              points[i] != [] && !Includes(points[i], MailOnlineBoilerplate) && !Includes(points[i], PageBoilerplate)
  {
    FilterSubsequence(KeepPoint, Split(summaryText, ". "));
    Filter(KeepPoint, Split(summaryText, ". "))
  }

  /** `points.map((point) => `🔹 ${point.trim()}.`)`. */
  function Bullets(points: seq<string>): (lines: seq<string>)
    ensures |lines| == |points|
    ensures forall i :: 0 <= i < |points| ==> lines[i] == BulletPoint(points[i])
  {
    seq(|points|, i requires 0 <= i < |points| => BulletPoint(points[i]))
  }

  /**
   * The lines of the formatted summary: one bullet per kept piece, in order,
   * as many as there are kept pieces.
   */
  function SummaryLines(summaryText: string): (lines: seq<string>)
    ensures |lines| == |KeptPoints(summaryText)| == |Positions(KeepPoint, Split(summaryText, ". "))|
    ensures forall i :: 0 <= i < |lines| ==> lines[i] == BulletPoint(KeptPoints(summaryText)[i])
  {
    FilterCount(KeepPoint, Split(summaryText, ". "));
    Bullets(KeptPoints(summaryText))
  }

  /** No line of the formatted summary holds either boilerplate sentence. */
  lemma NoBoilerplateLines(summaryText: string)
    ensures var lines := SummaryLines(summaryText);
            forall i :: 0 <= i < |lines| ==>
              !Includes(lines[i], MailOnlineBoilerplate) && !Includes(lines[i], PageBoilerplate)
  {
    var lines, points := SummaryLines(summaryText), KeptPoints(summaryText);
    BoilerplateShape();
    forall i | 0 <= i < |lines|
      ensures !Includes(lines[i], MailOnlineBoilerplate) && !Includes(lines[i], PageBoilerplate)
    {
      assert lines[i] == BulletPoint(points[i]);
      BulletKeepsOut(points[i], MailOnlineBoilerplate);
      BulletKeepsOut(points[i], PageBoilerplate);
    }
  }

  /**
   * The text shown as the summary: the bullet lines joined by line feeds.
   * It is empty exactly when no piece is kept, since every bullet holds at
   * least its prefix and final dot.
   */
  function FormatSummary(summaryText: string): (r: string)
    ensures r == [] <==> KeptPoints(summaryText) == []
  {
    var lines := SummaryLines(summaryText);
    JoinNonEmpty(lines, "\n");
    Join(lines, "\n")
  }

  /** The displayed summary holds neither boilerplate sentence, not even across a line break. */
  lemma NoBoilerplateInSummary(summaryText: string)
    ensures !Includes(FormatSummary(summaryText), MailOnlineBoilerplate)
    ensures !Includes(FormatSummary(summaryText), PageBoilerplate)
  {
    var lines := SummaryLines(summaryText);
    NoBoilerplateLines(summaryText);
    BoilerplateShape();
    JoinExcludes(lines, '\n', MailOnlineBoilerplate);
    JoinExcludes(lines, '\n', PageBoilerplate);
  }

  /**
   * A phrase absent from a piece is absent from the bullet made of it, when
   * it can neither start inside the bullet's prefix nor end on the final dot:
   * then an occurrence lies inside the trimmed piece, which is part of the
   * piece.
   */
  lemma BulletKeepsOut(point: string, phrase: string)
    requires phrase != [] && phrase[0] !in "🔹 " && phrase[|phrase| - 1] != '.'
    requires !Includes(point, phrase)
    ensures !Includes(BulletPoint(point), phrase)
  {
    if Includes(BulletPoint(point), phrase) {
      IncludesInMiddle("🔹 ", Trim(point), ".", phrase);
      var lo, hi := TrimSlice(point);
      IncludesInSlice(point, lo, hi, phrase);
    }
  }

  /** Neither boilerplate sentence can start in the bullet prefix or end on a dot. */
  lemma BoilerplateShape()
    ensures MailOnlineBoilerplate[0] !in "🔹 " && MailOnlineBoilerplate[|MailOnlineBoilerplate| - 1] != '.'
    ensures PageBoilerplate[0] !in "🔹 " && PageBoilerplate[|PageBoilerplate| - 1] != '.'
    ensures '\n' !in MailOnlineBoilerplate && '\n' !in PageBoilerplate
  {
  }

  /**
   * Emptiness is tested before trimming: a piece of spaces is kept and
   * becomes the bare bullet "🔹 .".
   */
  lemma BlankPointKept(point: string)
    requires point != [] && AllWhitespace(point)
    ensures KeepPoint(point)
    ensures BulletPoint(point) == "🔹 ."
  {
    assert !IsWhitespace('B') && !IsWhitespace('b');
    NotIncludedFirstChar(point, MailOnlineBoilerplate);
    NotIncludedFirstChar(point, PageBoilerplate);
  }

  /**
   * A summary ending in "." whose last piece is kept ends in "..": the last
   * piece keeps its own dot and the bullet adds another.
   */
  lemma FinalDotDoubled(summaryText: string)
    requires EndsWith(summaryText, ".")
    requires var pieces := Split(summaryText, ". "); KeepPoint(pieces[|pieces| - 1])
    ensures EndsWith(FormatSummary(summaryText), "..")
  {
    var pieces := Split(summaryText, ". ");
    var last := pieces[|pieces| - 1];
    SplitEndsWithLast(summaryText, ". ");
    EndsWithLastChar(summaryText, last);
    TrimKeepsLast(last);
    FilterKeepsLast(KeepPoint, pieces);
    BulletsEndWithDots(KeptPoints(summaryText));
  }

  /** When the last piece trims to a text ending in ".", its bullets joined by line feeds end in "..". */
  lemma BulletsEndWithDots(points: seq<string>)
    requires points != []
    requires var t := Trim(points[|points| - 1]); t != [] && t[|t| - 1] == '.'
    ensures EndsWith(Join(Bullets(points), "\n"), "..")
  {
    var lines := Bullets(points);
    DotAfterDot("🔹 ", Trim(points[|points| - 1]));
    assert lines[|lines| - 1] == BulletPoint(points[|points| - 1]);
    JoinEndsWithSuffixOfLast(lines, "\n", "..");
  }

  /** A bullet made of a text ending in "." ends in "..". */
  lemma DotAfterDot(prefix: string, t: string)
    requires t != [] && t[|t| - 1] == '.'
    ensures EndsWith(prefix + t + ".", "..")
  {
    var b := prefix + t + ".";
    assert b[|b| - 2..] == [t[|t| - 1], '.'];
  }

  /** `text.split(" ").length`: the word count shown under the input. */
  function WordCount(text: string): (n: nat)
    ensures n == multiset(text)[' '] + 1
  {
    SplitCount(text, ' ');
    |Split(text, " ")|
  }

  /** What the summarisation service did: answered (with or without `summary_text`), or failed. */
  datatype SummaryResponse =
    | Answered(summaryText: Option<string>)
    | Failed(errorMessage: Option<string>)   // None: the thrown value is not an `Error`

  /** How one request ends: the formatted summary, or the message shown instead. */
  datatype SummaryOutcome = Summarized(summary: string) | Error(message: string)

  /**
   * The `try`/`catch` of `summarizeText`: a missing or empty `summary_text`
   * is the failure message; a thrown error shows its own message; otherwise
   * the summary is formatted.
   */
  function Outcome(response: SummaryResponse): (o: SummaryOutcome)
    ensures o.Summarized? <==> response.Answered? && response.summaryText.Some? && response.summaryText.value != []
    ensures response.Answered? && o.Error? ==> o.message == FailedMessage
    ensures o.Summarized? ==> o.summary == FormatSummary(response.summaryText.value)
    ensures response.Failed? ==>
              o == Error(if response.errorMessage.Some? then response.errorMessage.value else UnexpectedMessage)
  {
    match response
    case Answered(text) =>
      if text.None? || text.value == [] then Error(FailedMessage)
      else Summarized(FormatSummary(text.value))
    case Failed(message) =>
      Error(if message.Some? then message.value else UnexpectedMessage)
  }

  class SummarizationPage {
    var text: string
    var summary: Option<string>
    var loading: bool
    var error: Option<string>
    var copied: bool

    constructor ()
      ensures text == [] && summary == None && !loading && error == None && !copied
    {
      text, summary, loading, error, copied := [], None, false, None, false;
    }

    /**
     * `summarizeText`, with the service's answer as `response`. Blank input
     * only sets the error. Otherwise the loading flag, error, summary and
     * copied flag are reset, the answer decides the summary or the error,
     * and loading ends.
     */
    method SummarizeText(response: SummaryResponse)
      modifies this`summary, this`loading, this`error, this`copied
      ensures AllWhitespace(text) ==>
                && error == Some(EmptyInputMessage)
                && summary == old(summary) && loading == old(loading) && copied == old(copied)
      ensures !AllWhitespace(text) ==>
                && !loading && !copied
                && match Outcome(response)
                   case Summarized(s) => summary == Some(s) && error == None
                   case Error(m) => summary == None && error == Some(m)
    {
      // `!text.trim()`: Trim gives "" exactly for all-whitespace text
      if AllWhitespace(text) {
        error := Some(EmptyInputMessage);
        return;
      }
      loading := true;
      error := None;
      summary := None;
      copied := false;
      match Outcome(response) {
        case Summarized(s) =>
          summary := Some(s);
        case Error(m) =>
          error := Some(m);
      }
      loading := false;
    }
  }
}
